=== FILE: README.md ===
# SuperDeathKill game engine core, modelled in Dafny

A model of the deterministic core of `game.js`, a small canvas game built on
Seth Ladd's game-engine shell. The browser, the canvas and the clock are
replaced by parameters and returned values; everything else follows the code.

- **Timing** (`Timer.tick`): the wall-clock delta, taken from a given
  millisecond timestamp, is clamped to `maxStep = 0.05` s. `gameTime` grows by
  the clamped step.
- **Sprites** (`Animation`): elapsed-time accumulation, the looping reset to
  exactly 0, the silent stop of a finished non-looping animation, the reverse
  index, and the placement of a 1-D frame index on the sheet's 2-D grid. The
  `startX` offset applies on the first row only. `drawImage` becomes a
  returned `Blit`, or `None` when nothing is drawn.
- **Assets** (`AssetManager`): the download queue (no de-duplication), the
  cache, and the success/error counters. Image loading is given as an explicit
  sequence of load/error events. The callback fires on the event that brings
  `successCount + errorCount` up to the queue length. An empty queue defers
  one call through a timer instead.
- **Engine** (`GameEngine.update`, `addEntity`, `loop`): the update loop
  visits only the indices present when the frame starts, and skips flagged
  entities. The reverse-index `splice` loop is proved equal to an
  order-preserving filter (`Survivors`). An entity's `update` is an abstract
  step function that returns the new entity and any entities it appends.
- **Enemy** (`Bastardman`): per draw, one unit per axis toward the anchor
  (image centre to (-100, 0)), then a draw of its one-frame animation.
- **Player** (`Hero`): key latching, the facing flag that decides between
  turning and walking, and the toroidal wrap with its literal 300 shift.
  Because the left and down branches each turn the hero when it faces
  elsewhere, holding left and down together never moves it once it is not
  facing left: on the first such frame from facing left it still walks left,
  and from then on each frame turns it left and back down. `LeftAndDownStall`
  states this behaviour of the code as written.

Times are exact `real` seconds. Positions are `real`. Sheet and frame sizes are
integers.

Two behaviours of the code are easy to misread:
- `gameTime` accumulates the clamped step, not the raw wall delta (game.js:121-122).
- Every queued path is cached when it is requested. An image that later fails
  is still cached, so `getAsset` returns it (game.js:47, 51-54).

## Model

| member | source | states |
|---|---|---|
| `Timing.NewTimer` | game.js:110-114 | a new timer starts with no game time, the 0.05 cap and a previous wall reading of 0 |
| `Timing.Tick` | game.js:116-124 | the step is min(wall delta, maxStep): never above either, and equal to one of them; gameTime grows by exactly the step; the last timestamp becomes the current time |
| `Timing.LongPauseIsClamped` | game.js:118-121 | a wall gap of 50 ms or more (a one-second stall included) yields exactly 0.05 |
| `Timing.ShortDeltaPassesThrough` | game.js:121 | a wall delta at or below the cap is returned unchanged |
| `Timing.GameTimeIsSumOfSteps` | game.js:119-123 | over any run of ticks, gameTime is the sum of the returned steps, and the timer ends on the last timestamp |
| `Timing.GameTimeGrowthIsCapped` | game.js:121-122 | n ticks of a timer with the 0.05 cap advance gameTime by at most n * 0.05, however long the wall gaps |
| `Sprites.NewAnimation` | game.js:56-68 | a new animation stores exactly the given sheet, start offsets, frame size, frame duration, frame count, loop and reverse flags; it starts at elapsed 0 with totalTime = frameDuration * frames, and is not done when it has a frame of positive duration |
| `Sprites.DoneIffPastLastFrame` | game.js:106-108 | isDone() holds exactly when the frame counter floor(elapsed / frameDuration) has reached the frame count |
| `Sprites.CurrentFrame` | game.js:102-104 | the frame number is the whole count of frame durations elapsed: r*d <= elapsed < (r+1)*d |
| `Sprites.PerRow` | game.js:86-87 | at least one frame fits a full row, and the per-row count is the largest that fits |
| `Sprites.ReverseMirrorsForward` | game.js:80 | the logical frame is the frame number when playing forward, and a reversed animation's frame mirrors it: the two sum to frames - 1 |
| `Sprites.EffectiveScale` | game.js:71 | the scale used is never zero: a given non-zero scale is used as is, and an omitted one means 1 |
| `Sprites.WrapRows` | game.js:86-89 | the row loop ends with the frame inside the sheet's width; each row moved down removes one full row of frames; a non-negative column stays non-negative |
| `Sprites.FirstRowFits` | game.js:82-83 | for any startX, even one past the sheet's right edge, a frame fits on the first row exactly when its index is below the first row's capacity floor((width - startX) / frameWidth) |
| `Sprites.SheetCell` | game.js:81-89 | the placed column ends on the sheet; a frame left on row 0 is the index itself and fits after the startX offset; an overhanging frame skips the first row's capacity and then whole rows; a frame that passes the first-row test (possible with a negative startX) still skips whole rows while it overhangs |
| `Sprites.NegativeStartWrapsOnFullRows` | game.js:81-89 | with startX = -50, frame width 10 on a 100-wide sheet, frame 12 passes the first-row test and the row loop still moves it to column 2 of row 1, source x 20 |
| `Sprites.SheetCellColumnNonNegative` | game.js:81-89 | for any startX, a frame with a non-negative index is placed at a non-negative column, which with the ensures of SheetCell fixes the cell |
| `Sprites.FrameBlit` | game.js:91-99 | the draw takes one frame-sized rectangle from the sheet, at the column and row the grid places the frame in, offset by startX on the first row only and by startY on every row, and paints it at (x, y) at the frame's size times the scale |
| `Sprites.SheetCellClosedForm` | game.js:81-89 | grid placement equals the closed form: (index, 0) on the first row, else ((index - first) mod perRow, 1 + (index - first) div perRow) |
| `Sprites.SourceRectOnSheet` | game.js:81-95 | the source column is non-negative; the right edge stays within the sheet; the offset is startX exactly on row 0; index = column + firstRowCapacity + (row - 1) * perRow below row 0 |
| `Sprites.DrawFrame` | game.js:70-100 | only elapsed time changes; a looping animation resets to exactly 0 on reaching totalTime and stays below it; a non-looping one keeps adding the tick and draws nothing once done; the draw shows the current frame at (x, y), one frame in size, scaled (0 meaning 1) |
| `Sprites.FrameIndexInRange` | game.js:80-108 | inside a cycle, the frame index and its reverse frames - index - 1 both lie in [0, frames) |
| `Sprites.DrawnWithinCycle` | game.js:72-79 | with non-negative elapsed time and tick, a draw only happens with the new elapsed time inside [0, totalTime) |
| `Sprites.DrawnFrameInRange` | game.js:70-99 | every drawn frame is one of the animation's frames, reversed or not, and its source rectangle is within the sheet's width |
| `Sprites.FullCycleWrapsToFirstFrame` | game.js:72-104 | feeding exactly one full cycle to a looping animation wraps to frame 0, drawn at (startX, startY), not to frame `frames` |
| `Sprites.FinishedAnimationStaysSilent` | game.js:72-79 | once a non-looping animation is done, no later call draws, and elapsed time keeps growing |
| `Sprites.NonLoopingElapsedIsMonotone` | game.js:72 | with non-negative ticks, elapsed time never decreases in a non-looping animation |
| `Assets.NewManager` | game.js:16-21 | a new manager has an empty queue, an empty cache and zero counters |
| `Assets.QueueDownload` | game.js:23-26 | the path is appended with no duplicate check; nothing else changes |
| `Assets.QueueAllAppends` | game.js:23-26 | queueing a list of paths appends exactly those paths, in order, duplicates included |
| `Assets.DownloadAll` | game.js:31-49 | the timer-deferred callback is scheduled iff the queue is empty; every queued path is in the cache at request time; queue and counters are unchanged |
| `Assets.LastSlot` | game.js:33-34 | finds the last queue position holding a path, or reports that there is none |
| `Assets.CacheHoldsLastRequest` | game.js:33-48 | a path queued several times is cached with the image of its last position; an unqueued path keeps its previous cache entry |
| `Assets.GetAsset` | game.js:51-54 | the lookup yields a value iff the path is in the cache, and that value is the cached image |
| `Assets.Deliver` | game.js:37-45 | a load bumps successCount, an error bumps errorCount; the callback fires iff the manager is now done; the cache and queue are untouched |
| `Assets.CountersMatchEvents` | game.js:37-45 | after a run of events, the counters are the numbers of loads and errors delivered; the cache and queue are unchanged |
| `Assets.DoneIffAllReported` | game.js:28-30 | starting from zero outcomes, the manager is done after downloadAll exactly when as many outcomes as queued images have been delivered |
| `Assets.FiresWhenCountReachesQueue` | game.js:28-45 | the callback fires on an event iff it brings success + error up to the queue length, whatever the order of loads and errors |
| `Assets.CallbackFiresOnceOnLastOutcome` | game.js:31-49 | with one outcome per queued image, the callback fires exactly once, on the last outcome |
| `Assets.EmptyQueueFiresOnceDeferred` | game.js:31-45 | with an empty queue the deferred call is scheduled, and no load or error event delivered afterwards, whatever the events, fires the callback again |
| `Assets.EveryQueuedPathIsCached` | game.js:47-54 | after downloadAll, every queued path is found by getAsset, on the image created for it with that path as its requested src, even when its load failed |
| `Engine.AddEntity` | game.js:236-239 | the entity is appended last; nothing else changes |
| `Engine.Survivors` | game.js:265-269 | the filtered collection holds no flagged entity and is no longer than the original |
| `Engine.Visited` | game.js:257-263 | the update loop leaves one entry per original position, and an entity already flagged before its turn is left exactly as it was (not updated) |
| `Engine.VisitOne` | game.js:258-262 | visiting index i skips a flagged entity; otherwise it replaces the entity by its update and appends what the update added |
| `Engine.UpdatePhase` | game.js:255-263 | only indices below the length taken at the start are visited; flagged entities are untouched; entities appended during the phase follow unvisited |
| `Engine.RemoveFlagged` | game.js:265-269 | the reverse-index splice loop yields exactly the order-preserving filter of unflagged entities |
| `Engine.Update` | game.js:254-270 | update() = update phase then cleanup: the survivors of the visited entities plus the appended ones |
| `Engine.Frame` | game.js:272-282 | a frame ticks the timer (clockTick <= maxStep), updates and cleans up, draws the survivors in order, each draw given the clockTick this frame computed, and clears the wheel latch |
| `Engine.SurvivorsAppend` | game.js:265-269 | cleanup distributes over concatenation, so relative order is kept |
| `Engine.SurvivorsMembership` | game.js:265-269 | an entity remains iff it was present and not flagged |
| `Engine.SurvivorsIdempotent` | game.js:265-269 | cleaning twice removes nothing more |
| `Engine.SurvivorsCount` | game.js:265-269 | the collection shrinks by exactly the number of flagged entities |
| `Engine.KeptFrom` | game.js:265-269 | the listed positions are unflagged, in range and strictly ascending |
| `Engine.KeptFromCoversUnflagged` | game.js:265-269 | every unflagged position is listed |
| `Engine.SurvivorsAreKeptPositions` | game.js:265-269 | the k-th survivor is the entity at the k-th unflagged index |
| `Engine.RemovalSkipsNone` | game.js:265-269 | flagging indices 0, 2 and 4 of five leaves exactly the entities at 1 and 3, in that order |
| `Enemy.NewBastardman` | game.js:349-352 | the enemy starts at the given point, with a one-frame looping animation cut from its own image at (0, 0), the size of that image, with frame duration 1 |
| `Enemy.Approach` | game.js:381-391 | each axis moves by sign(anchor - centre): at most one unit, toward the anchor, none on it |
| `Enemy.DistanceNeverGrowsIff` | game.js:381-391 | the distance to the anchor does not grow iff the centre is on the anchor or at least half a unit off it |
| `Enemy.DistanceShrinksOnHalfGrid` | game.js:381-391 | on the half-unit grid the distance never grows, and it shrinks by exactly 1 while it is at least 1 |
| `Enemy.Draw` | game.js:379-394 | both coordinates move one unit toward the anchor (or stay on it), and the draw lands at the new position |
| `Enemy.AtAnchorStaysPut` | game.js:381-391 | an enemy centred on the anchor does not move |
| `Enemy.DriftConverges` | game.js:381-391 | from a whole number d of units off, n draws leave sign(d) * max(abs(d) - n, 0) |
| `Enemy.DrawsWholeImage` | game.js:351-393 | each draw of the enemy shows its whole image |
| `Player.NewHero` | game.js:397-406 | the hero starts at (-surfaceWidth/2 - 27, 0), facing flag 0, no key latched, with the 54x66 start cycle at (12, 0) at elapsed 0 |
| `Player.Update` | game.js:411-418 | the moving flags take the latched W/A/S/D values; nothing else changes |
| `Player.Turn` | game.js:430-461 | with a side key held: walking one step when already facing that way, else turning to a fresh animation without moving or drawing |
| `Player.WrapX` | game.js:467-472 | an x inside the band is kept; past the right bound (shifted by 300) it re-enters at the left; past the left bound it re-enters 300 short of the right; on a wide enough surface the result is in the band |
| `Player.WrapY` | game.js:473-478 | a y inside the band is kept; past one bound it re-enters just inside the other; the result is always in the band |
| `Player.WrapIsIdempotent` | game.js:467-478 | wrapping an already wrapped position changes nothing |
| `Player.Walk` | game.js:425-461 | for every key combination: the facing becomes the last side key held (right, then down, then left) or stays; left walks iff already facing left; down walks iff left is not held and the hero faces down; right walks iff neither left nor down is held and it faces right; up always walks; the current cycle is the one installed by the last turning branch |
| `Player.Draw` | game.js:420-479 | for every key combination: the same facing, walks and current cycle as the key branches, then the position is the wrap of the summed steps at the final cycle's frame size; the latched keys are kept and the animation stays drawable |
| `Player.HeldKeyWalks` | game.js:425-478 | holding only the key of the current facing (or only up) moves exactly 5 units that way, then wraps |
| `Player.TurningDoesNotMove` | game.js:430-478 | pressing left while facing elsewhere sets flag 2 and starts the left cycle from zero; the hero only wraps |
| `Player.LeftAndDownStall` | game.js:430-478 | holding left and down while not facing left ends at flag 3 without moving |

## Left out

- The `requestAnimFrame` shim, `GameEngine.start`, `init` and the loop's scheduling (game.js:5-14, 137-153): browser timing plumbing.
- `startInput` and `getXandY` (game.js:155-234): DOM event wiring. The latched keys are a `Keys` parameter, and the wheel latch is a boolean.
- Canvas work: `clearRect`, `save`, `restore` and `drawCallback` in `GameEngine.draw`, the outline stroking in `Entity.draw`, `rotateAndCache`, and `Background.draw`. `drawImage` is modelled only as a returned rectangle.
- `Engine.Frame`: entity draws are a per-entity function applied in order. A draw that changes other entities is not modelled, and none in this file does.
- `Engine.UpdatePhase`: an entity's update may only change itself and append entities. Changing other entities from inside an update is not modelled, and no update in this file does it.
- The `src` an image reports is the path as requested. A browser resolves `img.src` to an absolute URL; that resolution is not modelled.
- Real image loading and the `setTimeout` of the empty-queue case are asynchronous I/O. Outcomes are an explicit event sequence, and the deferred call is a returned flag.
- The cache is a JavaScript array used as a map. Inherited array properties such as `length` are not modelled.
- `Math.random` spawn positions in the `Bastardman` constructor (game.js:354-367): the start position is a parameter.
- `console.log` calls and the bootstrap block (game.js:483-509).
- IEEE-754 rounding: times and positions are exact reals, and `Date.now()` is an integer millisecond parameter.
- `Sprites.DrawFrame` requires a positive frame duration and a frame no wider than the sheet. Without them the source divides by zero or loops forever in its row loop.
- `Player.Draw` requires a sheet at least 80 pixels wide, for the same reason.
- Frames whose row goes past the sheet's height are not checked, as in the source.
- Timers, animations and drift are not stated for negative ticks. Clock ticks are non-negative in the lemmas that need them.
- Circle bounding boxes, tower, score and collisions are not in this file's code, so they are not modelled.

=== FILE: animation.dfy ===
/** Sprite-sheet animation (`Animation` in game.js): elapsed-time bookkeeping,
    looping and stopping, the reverse index, and the placement of a 1-D frame
    index on the 2-D frame grid of the sheet. `drawImage` becomes a returned
    `Blit` (source and destination rectangles), or `None` when nothing is drawn. */
module Sprites {
  import opened Wrappers

  /** The sprite sheet image: only its pixel size matters here. */
  datatype Sheet = Sheet(width: int, height: int)

  /** One `drawImage(sheet, srcX, srcY, srcW, srcH, destX, destY, destW, destH)` call. */
  datatype Blit = Blit(srcX: int, srcY: int, srcW: int, srcH: int,
                       destX: real, destY: real, destW: real, destH: real)

  /** The animation record. `startX`/`startY` locate frame 0 on the sheet;
      times are seconds. The source also stores `totalTime`; nothing ever
      changes `frameDuration` or `frames`, so it is computed here instead. */
  datatype Animation = Animation(
    sheet: Sheet,
    startX: int, startY: int,
    frameWidth: int, frameHeight: int,
    frameDuration: real, frames: int,
    elapsedTime: real,
    loop: bool, reverse: bool)
  {
    /** Length of one full cycle. */
    function TotalTime(): real {
      frameDuration * frames as real
    }

    /** `isDone()`: a whole cycle has elapsed. */
    predicate IsDone() {
      elapsedTime >= TotalTime()
    }

    /** What drawing needs: a positive frame duration (the frame index
        divides by it) and a frame no wider than the sheet (otherwise the
        row loop of `drawFrame` never ends). */
    predicate Valid() {
      frameDuration > 0.0 && 0 < frameWidth <= sheet.width
    }
  }

  /** An animation with at least one frame of positive duration takes
      positive time. */
  lemma TotalTimePositive(a: Animation)
    ensures a.frameDuration > 0.0 && a.frames >= 1 ==> a.TotalTime() > 0.0
  {
    if a.frameDuration > 0.0 && a.frames >= 1 {
      MulRealMono(1.0, a.frames as real, a.frameDuration);
    }
  }

  /** The constructor: playback starts at elapsed time 0. */
  function NewAnimation(sheet: Sheet, startX: int, startY: int, frameWidth: int, frameHeight: int,
                        frameDuration: real, frames: int, loop: bool, reverse: bool): (a: Animation)
    ensures a.sheet == sheet && a.startX == startX && a.startY == startY
    ensures a.frameWidth == frameWidth && a.frameHeight == frameHeight
    ensures a.frameDuration == frameDuration && a.frames == frames
    ensures a.loop == loop && a.reverse == reverse
    ensures a.elapsedTime == 0.0
    ensures a.TotalTime() == frameDuration * frames as real
    ensures frameDuration > 0.0 && frames >= 1 ==> !a.IsDone()
  {
    Animation(sheet, startX, startY, frameWidth, frameHeight, frameDuration, frames, 0.0, loop, reverse)
  }

  /** `currentFrame()`: the whole number of frame durations elapsed. */
  function CurrentFrame(a: Animation): (r: int)
    requires a.frameDuration > 0.0
    ensures r as real * a.frameDuration <= a.elapsedTime < (r as real + 1.0) * a.frameDuration
  {
    var q := a.elapsedTime / a.frameDuration;
    FloorBounds(a.elapsedTime, a.frameDuration);
    q.Floor
  }

  /** The floor of `e / d`, multiplied back by a positive `d`, brackets `e`. */
  lemma FloorBounds(e: real, d: real)
    requires d > 0.0
    ensures (e / d).Floor as real * d <= e < ((e / d).Floor as real + 1.0) * d
  {
    var q := e / d;
    var f := q.Floor as real;
    assert f <= q < f + 1.0;
    assert q * d == e;
    MulRealMono(f, q, d);
    MulRealStrict(q, f + 1.0, d);
    assert q * d < (f + 1.0) * d;
    assert e < (f + 1.0) * d;
  }

  lemma MulRealMono(x: real, y: real, d: real)
    requires d > 0.0 && x <= y
    ensures x * d <= y * d
  {
  }

  lemma MulRealStrict(x: real, y: real, d: real)
    requires d > 0.0 && x < y
    ensures x * d < y * d
  {
  }

  /** The logical frame to show: counted from the end when `reverse` is set. */
  function FrameIndex(a: Animation): int
    requires a.frameDuration > 0.0
  {
    if a.reverse then a.frames - CurrentFrame(a) - 1 else CurrentFrame(a)
  }

  /** During a cycle, the frame number is below the frame count. */
  lemma CycleFrameInRange(a: Animation)
    requires a.frameDuration > 0.0
    ensures 0.0 <= a.elapsedTime < a.TotalTime() ==> 0 <= CurrentFrame(a) < a.frames
  {
    if 0.0 <= a.elapsedTime < a.TotalTime() {
      var c := CurrentFrame(a);
      MulRealCancelLess(c as real, a.frames as real, a.frameDuration);
      MulRealCancelLess(0.0, c as real + 1.0, a.frameDuration);
    }
  }

  /** A reversed animation shows the forward frames mirrored: at any
      elapsed time its frame and the forward one sum to `frames - 1`. */
  lemma ReverseMirrorsForward(a: Animation)
    requires a.frameDuration > 0.0
    ensures FrameIndex(a.(reverse := true)) + FrameIndex(a.(reverse := false)) == a.frames - 1
    ensures FrameIndex(a.(reverse := false)) == CurrentFrame(a)
  {
  }

  /** `isDone()` holds exactly when the frame counter has run past the
      last frame. */
  lemma DoneIffPastLastFrame(a: Animation)
    requires a.frameDuration > 0.0
    ensures a.IsDone() <==> CurrentFrame(a) >= a.frames
  {
    CountPastBound(a.elapsedTime, a.frameDuration, CurrentFrame(a), a.frames);
  }

  /** With `e` in the `c`-th slot of width `d`, `e` has reached `n` slots
      exactly when `c >= n`. */
  lemma CountPastBound(e: real, d: real, c: int, n: int)
    requires d > 0.0
    requires c as real * d <= e < (c as real + 1.0) * d
    ensures e >= d * n as real <==> c >= n
  {
    if e >= d * n as real {
      MulRealCancelLess(n as real, c as real + 1.0, d);
    }
    if c >= n {
      MulRealMono(n as real, c as real, d);
    }
  }

  /** Frames that fit on one full row of the sheet. */
  function PerRow(sheetWidth: int, frameWidth: int): (n: int)
    requires 0 < frameWidth <= sheetWidth
    ensures n >= 1
    ensures n * frameWidth <= sheetWidth < (n + 1) * frameWidth
  {
    DivBounds(sheetWidth, frameWidth);
    sheetWidth / frameWidth
  }

  /** Euclidean division by a positive divisor is floor division. */
  lemma DivBounds(n: int, d: int)
    requires d > 0
    ensures (n / d) * d <= n < (n / d + 1) * d
  {
  }

  /** Frames that fit on the first row, to the right of `startX`
      (`Math.floor` on a positive divisor, which Dafny's `/` agrees with). */
  function FirstRowCapacity(a: Animation): int
    requires a.frameWidth > 0
  {
    (a.sheet.width - a.startX) / a.frameWidth
  }

  /** The `while` loop of `drawFrame`: as long as frame `index` would reach
      past the right edge, step back by one full row and go one row down.
      Returns the final column and row. */
  function WrapRows(index: int, vindex: int, sheetWidth: int, frameWidth: int): (r: (int, int))
    requires 0 < frameWidth <= sheetWidth
    // the frame ends on the sheet
    ensures (r.0 + 1) * frameWidth <= sheetWidth
    // each row moved down accounts for one full row of frames
    ensures r.1 >= vindex
    ensures index == r.0 + (r.1 - vindex) * PerRow(sheetWidth, frameWidth)
    // a column that was not negative never becomes negative
    ensures index >= 0 ==> r.0 >= 0
    ensures index < PerRow(sheetWidth, frameWidth) ==> r == (index, vindex)
    decreases if index < 0 then 0 else index
  {
    var perRow := PerRow(sheetWidth, frameWidth);
    if (index + 1) * frameWidth > sheetWidth then
      OverhangNeedsWrap(index, sheetWidth, frameWidth);
      var r := WrapRows(index - perRow, vindex + 1, sheetWidth, frameWidth);
      OneMoreRow(r.1, vindex, perRow);
      r
    else
      FitsBeforeWrap(index, sheetWidth, frameWidth);
      (index, vindex)
  }

  /** Counting rows from one row higher adds one full row of frames. */
  lemma OneMoreRow(row: int, vindex: int, perRow: int)
    ensures (row - vindex) * perRow == (row - (vindex + 1)) * perRow + perRow
  {
  }

  /** A frame that overhangs the right edge is at or past a full row. */
  lemma OverhangNeedsWrap(index: int, sheetWidth: int, frameWidth: int)
    requires 0 < frameWidth <= sheetWidth
    requires (index + 1) * frameWidth > sheetWidth
    ensures index >= PerRow(sheetWidth, frameWidth)
  {
    var n := PerRow(sheetWidth, frameWidth);
    MulCancelLess(n, index + 1, frameWidth);
  }

  /** A frame that fits is before the end of a full row. */
  lemma FitsBeforeWrap(index: int, sheetWidth: int, frameWidth: int)
    requires 0 < frameWidth <= sheetWidth
    requires (index + 1) * frameWidth <= sheetWidth
    ensures index < PerRow(sheetWidth, frameWidth)
  {
    var n := PerRow(sheetWidth, frameWidth);
    MulCancelLess(index + 1, n + 1, frameWidth);
  }

  /** Cancelling a positive factor from a strict inequality. */
  lemma MulCancelLess(x: int, y: int, d: int)
    requires d > 0 && x * d < y * d
    ensures x < y
  {
  }

  /** Column and row of frame `index` on the sheet: if the frame overhangs
      the first row (which begins at `startX`), skip the first row's
      capacity and go one row down; in either case, then step back by full
      rows while the frame still reaches past the right edge. */
  function SheetCell(a: Animation, index: int): (r: (int, int))
    requires a.Valid()
    ensures r.1 >= 0
    // the column ends on the sheet
    ensures (r.0 + 1) * a.frameWidth <= a.sheet.width
    // a frame left on row 0 is the index itself, and fits after the offset
    ensures r.1 == 0 ==> r.0 == index && (index + 1) * a.frameWidth + a.startX <= a.sheet.width
    // an overhanging frame skips the first row's capacity, then full rows
    ensures (index + 1) * a.frameWidth + a.startX > a.sheet.width ==>
              r.1 >= 1 && index == r.0 + FirstRowCapacity(a) + (r.1 - 1) * PerRow(a.sheet.width, a.frameWidth)
    // otherwise only full rows are skipped
    ensures (index + 1) * a.frameWidth + a.startX <= a.sheet.width ==>
              index == r.0 + r.1 * PerRow(a.sheet.width, a.frameWidth)
  {
    if (index + 1) * a.frameWidth + a.startX > a.sheet.width then
      WrapRows(index - FirstRowCapacity(a), 1, a.sheet.width, a.frameWidth)
    else
      WrapRows(index, 0, a.sheet.width, a.frameWidth)
  }

  /** Whatever `startX` is, a frame that exists lands on a column at or
      right of the sheet's left edge; with the ensures of `SheetCell` this
      pins the cell. */
  lemma SheetCellColumnNonNegative(a: Animation, index: int)
    requires a.Valid() && index >= 0
    ensures SheetCell(a, index).0 >= 0
  {
    FirstRowFits(a, index);
  }

  /** With a negative `startX` a frame can pass the first-row test and still
      overhang the sheet; the row loop then moves it down by full rows. */
  lemma NegativeStartWrapsOnFullRows()
    ensures var a := Animation(Sheet(100, 100), -50, 0, 10, 10, 0.1, 20, 0.0, true, false);
            SheetCell(a, 12) == (2, 1) && FrameBlit(a, 12, 0.0, 0.0, 1.0).srcX == 20
  {
  }

  /** The horizontal start offset applies to the first row only. */
  function RowOffset(a: Animation, vindex: int): int {
    if vindex == 0 then a.startX else 0
  }

  /** The source rectangle of frame `index`, drawn at (x, y) scaled by `scale`. */
  function FrameBlit(a: Animation, index: int, x: real, y: real, scale: real): (r: Blit)
    requires a.Valid()
    // one frame of the sheet, taken from the cell the grid places it in
    ensures r.srcW == a.frameWidth && r.srcH == a.frameHeight
    ensures r.srcY == SheetCell(a, index).1 * a.frameHeight + a.startY
    // startX offsets the first row only
    ensures r.srcX == SheetCell(a, index).0 * a.frameWidth + (if SheetCell(a, index).1 == 0 then a.startX else 0)
    // drawn at (x, y), the frame's size times the scale
    ensures r.destX == x && r.destY == y
    ensures r.destW == a.frameWidth as real * scale && r.destH == a.frameHeight as real * scale
  {
    var cell := SheetCell(a, index);
    Blit(cell.0 * a.frameWidth + RowOffset(a, cell.1), cell.1 * a.frameHeight + a.startY,
         a.frameWidth, a.frameHeight,
         x, y, a.frameWidth as real * scale, a.frameHeight as real * scale)
  }

  /** `scaleBy || 1`: an omitted (or zero) scale means 1. */
  function EffectiveScale(scaleBy: real): (r: real)
    ensures r != 0.0
    ensures scaleBy != 0.0 ==> r == scaleBy
  {
    if scaleBy == 0.0 then 1.0 else scaleBy
  }

  /** `drawFrame(tick, ctx, x, y, scaleBy)`. Returns the animation with its
      new elapsed time, and the draw call it issues, if any. */
  function DrawFrame(a: Animation, tick: real, x: real, y: real, scaleBy: real): (r: (Animation, Option<Blit>))
    requires a.Valid()
    // only the elapsed time changes
    ensures r.0 == a.(elapsedTime := r.0.elapsedTime)
    // a looping animation that reaches or passes the end restarts at exactly 0
    ensures a.loop ==> r.0.elapsedTime == (if a.elapsedTime + tick >= a.TotalTime() then 0.0 else a.elapsedTime + tick)
    ensures a.loop && a.frames >= 1 ==> r.0.elapsedTime < a.TotalTime()
    // a non-looping animation keeps accumulating, and draws nothing once done
    ensures !a.loop ==> r.0.elapsedTime == a.elapsedTime + tick
    ensures r.1.None? <==> !a.loop && r.0.IsDone()
    // the draw shows the current logical frame, at (x, y), one frame in size times the scale
    ensures r.1.Some? ==> r.1.value == FrameBlit(r.0, FrameIndex(r.0), x, y, EffectiveScale(scaleBy))
    ensures r.1.Some? ==> r.1.value.srcW == a.frameWidth && r.1.value.srcH == a.frameHeight
  {
    var e := a.elapsedTime + tick;
    var b := a.(elapsedTime := if a.loop && e >= a.TotalTime() then 0.0 else e);
    TotalTimePositive(a);
    if !a.loop && b.IsDone() then (b, None)
    else (b, Some(FrameBlit(b, FrameIndex(b), x, y, EffectiveScale(scaleBy))))
  }

  /** Closed form of the grid placement: with frame 0 at `startX` on a sheet
      wide enough for one frame there, logical frame `index` lands on the
      first row while it fits there, and otherwise on full rows below, with
      `index = column + firstRowCapacity + (row - 1) * perRow`. */
  lemma {:induction false} SheetCellClosedForm(a: Animation, index: int)
    requires a.Valid()
    requires 0 <= a.startX && a.startX + a.frameWidth <= a.sheet.width
    requires index >= 0
    ensures var first := FirstRowCapacity(a);
            var perRow := PerRow(a.sheet.width, a.frameWidth);
            SheetCell(a, index) ==
              if index < first then (index, 0)
              else ((index - first) % perRow, 1 + (index - first) / perRow)
  {
    var first := FirstRowCapacity(a);
    var perRow := PerRow(a.sheet.width, a.frameWidth);
    FirstRowFits(a, index);
    if index < first {
      // the first row holds no more frames than a full row
      DivBounds(a.sheet.width - a.startX, a.frameWidth);
      MulCancelLess(first, perRow + 1, a.frameWidth);
    } else {
      var r := WrapRows(index - first, 1, a.sheet.width, a.frameWidth);
      FitsBeforeWrap(r.0, a.sheet.width, a.frameWidth);
      EuclidUnique(index - first, perRow, r.0, r.1 - 1);
    }
  }

  /** Frame `index` fits on the first row exactly when it is below the first
      row's capacity. */
  lemma FirstRowFits(a: Animation, index: int)
    requires a.frameWidth > 0
    ensures (index + 1) * a.frameWidth + a.startX <= a.sheet.width <==> index < FirstRowCapacity(a)
  {
    var first := FirstRowCapacity(a);
    DivBounds(a.sheet.width - a.startX, a.frameWidth);
    if index < first {
      MulIntMono(index + 1, first, a.frameWidth);
    } else {
      MulIntMono(first + 1, index + 1, a.frameWidth);
    }
  }

  lemma MulIntMono(x: int, y: int, d: int)
    requires d >= 0 && x <= y
    ensures x * d <= y * d
  {
  }

  /** Quotient and remainder by a positive divisor are unique. */
  lemma EuclidUnique(n: int, d: int, rem: int, quot: int)
    requires d > 0 && 0 <= rem < d && n == rem + quot * d
    ensures n % d == rem && n / d == quot
  {
    DivBounds(n, d);
    var q := n / d;
    MulCancelLess(q, quot + 1, d);
    MulCancelLess(quot, q + 1, d);
  }

  /** Where the source rectangle lies for a non-negative frame index: inside
      the sheet horizontally, offset by `startX` exactly on row 0, and with
      `index = column + firstRowCapacity + (row - 1) * perRow` below row 0. */
  lemma SourceRectOnSheet(a: Animation, index: int, x: real, y: real, scale: real)
    requires a.Valid()
    requires 0 <= a.startX && a.startX + a.frameWidth <= a.sheet.width
    requires index >= 0
    ensures var cell := SheetCell(a, index);
            var b := FrameBlit(a, index, x, y, scale);
            && cell.0 >= 0 && cell.1 >= 0
            && 0 <= b.srcX && b.srcX + b.srcW <= a.sheet.width
            && b.srcX == cell.0 * a.frameWidth + (if cell.1 == 0 then a.startX else 0)
            && b.srcY == cell.1 * a.frameHeight + a.startY
            && (cell.1 == 0 ==> cell.0 == index)
            && (cell.1 >= 1 ==> index == cell.0 + FirstRowCapacity(a)
                                        + (cell.1 - 1) * PerRow(a.sheet.width, a.frameWidth))
  {
    var cell := SheetCell(a, index);
    SheetCellColumnNonNegative(a, index);
    MulIntMono(0, cell.0, a.frameWidth);
    assert (cell.0 + 1) * a.frameWidth == cell.0 * a.frameWidth + a.frameWidth;
  }

  /** While a cycle is under way (elapsed in [0, TotalTime)), the frame index
      and its reverse both lie in [0, frames). */
  lemma FrameIndexInRange(a: Animation)
    requires a.frameDuration > 0.0
    requires 0.0 <= a.elapsedTime < a.TotalTime()
    ensures 0 <= CurrentFrame(a) < a.frames
    ensures 0 <= a.frames - CurrentFrame(a) - 1 < a.frames
    ensures 0 <= FrameIndex(a) < a.frames
  {
    CycleFrameInRange(a);
  }

  lemma MulRealCancelLess(x: real, y: real, d: real)
    requires d > 0.0 && x * d < y * d
    ensures x < y
  {
  }

  /** With non-negative elapsed time and tick, `drawFrame` only draws while
      the new elapsed time lies inside the cycle. */
  lemma DrawnWithinCycle(a: Animation, tick: real, x: real, y: real, scaleBy: real)
    requires a.Valid() && a.frames >= 1
    requires a.elapsedTime >= 0.0 && tick >= 0.0
    ensures var r := DrawFrame(a, tick, x, y, scaleBy);
            r.1.Some? ==> 0.0 <= r.0.elapsedTime < r.0.TotalTime()
  {
    TotalTimePositive(a);
  }

  /** With non-negative elapsed time and tick, every frame `drawFrame` draws
      is one of the animation's frames, reversed or not, and its source
      rectangle stays within the sheet's width. */
  lemma DrawnFrameInRange(a: Animation, tick: real, x: real, y: real, scaleBy: real)
    requires a.Valid() && a.frames >= 1
    requires a.elapsedTime >= 0.0 && tick >= 0.0
    requires 0 <= a.startX && a.startX + a.frameWidth <= a.sheet.width
    ensures var r := DrawFrame(a, tick, x, y, scaleBy);
            r.1.Some? ==>
              && 0 <= FrameIndex(r.0) < a.frames
              && 0 <= r.1.value.srcX && r.1.value.srcX + r.1.value.srcW <= a.sheet.width
  {
    var r := DrawFrame(a, tick, x, y, scaleBy);
    if r.1.Some? {
      DrawnWithinCycle(a, tick, x, y, scaleBy);
      FrameIndexInRange(r.0);
      SourceRectOnSheet(r.0, FrameIndex(r.0), x, y, EffectiveScale(scaleBy));
    }
  }

  /** A looping animation fed exactly one full cycle from the start wraps
      back to frame 0 (not to frame `frames`), drawn at the first cell. */
  lemma FullCycleWrapsToFirstFrame(a: Animation, x: real, y: real)
    requires a.Valid() && a.loop && !a.reverse && a.frames >= 1
    requires a.elapsedTime == 0.0
    requires 0 <= a.startX && a.startX + a.frameWidth <= a.sheet.width
    ensures var r := DrawFrame(a, a.TotalTime(), x, y, 0.0);
            && r.0.elapsedTime == 0.0
            && CurrentFrame(r.0) == 0
            && r.1 == Some(Blit(a.startX, a.startY, a.frameWidth, a.frameHeight,
                                x, y, a.frameWidth as real, a.frameHeight as real))
  {
    var r := DrawFrame(a, a.TotalTime(), x, y, 0.0);
    assert r.0.elapsedTime == 0.0;
    assert CurrentFrame(r.0) == 0;
  }

  /** Playing a sequence of ticks: the draw outcome of each call. */
  function Play(a: Animation, ticks: seq<real>): (r: (Animation, seq<Option<Blit>>))
    requires a.Valid()
    ensures r.0.Valid() && r.0 == a.(elapsedTime := r.0.elapsedTime)
    ensures |r.1| == |ticks|
    decreases |ticks|
  {
    if ticks == [] then (a, [])
    else
      var first := DrawFrame(a, ticks[0], 0.0, 0.0, 0.0);
      var rest := Play(first.0, ticks[1..]);
      (rest.0, [first.1] + rest.1)
  }

  /** One draw of a finished non-looping animation: silent, still done. */
  lemma FinishedStepIsSilent(a: Animation, tick: real)
    requires a.Valid() && !a.loop && a.IsDone() && tick >= 0.0
    ensures var r := DrawFrame(a, tick, 0.0, 0.0, 0.0);
            r.1 == None && r.0.IsDone() && r.0.Valid() && r.0.elapsedTime >= a.elapsedTime
  {
    var r := DrawFrame(a, tick, 0.0, 0.0, 0.0);
    assert r.0 == a.(elapsedTime := a.elapsedTime + tick);
    assert r.0.TotalTime() == a.TotalTime();
  }

  /** Once a non-looping animation is done, no later `drawFrame` with a
      non-negative tick draws anything, and elapsed time keeps growing. */
  lemma {:induction false} FinishedAnimationStaysSilent(a: Animation, ticks: seq<real>)
    requires a.Valid() && !a.loop && a.IsDone()
    requires forall k :: 0 <= k < |ticks| ==> ticks[k] >= 0.0
    ensures forall k :: 0 <= k < |ticks| ==> Play(a, ticks).1[k] == None
    ensures Play(a, ticks).0.elapsedTime >= a.elapsedTime
    ensures Play(a, ticks).0.IsDone()
    decreases |ticks|
  {
    if ticks != [] {
      var first := DrawFrame(a, ticks[0], 0.0, 0.0, 0.0);
      FinishedStepIsSilent(a, ticks[0]);
      FinishedAnimationStaysSilent(first.0, ticks[1..]);
      var rest := Play(first.0, ticks[1..]);
      assert Play(a, ticks) == (rest.0, [first.1] + rest.1);
      forall k | 0 <= k < |ticks|
        ensures Play(a, ticks).1[k] == None
      {
        if k > 0 {
          assert Play(a, ticks).1[k] == rest.1[k - 1];
        }
      }
    }
  }

  /** Elapsed time never runs backwards within a non-looping animation's
      life when ticks are non-negative. */
  lemma {:induction false} NonLoopingElapsedIsMonotone(a: Animation, ticks: seq<real>)
    requires a.Valid() && !a.loop
    requires forall k :: 0 <= k < |ticks| ==> ticks[k] >= 0.0
    ensures Play(a, ticks).0.elapsedTime >= a.elapsedTime
    decreases |ticks|
  {
    if ticks != [] {
      var first := DrawFrame(a, ticks[0], 0.0, 0.0, 0.0);
      NonLoopingElapsedIsMonotone(first.0, ticks[1..]);
    }
  }
}

=== FILE: assets.dfy ===
/** The asset loader (`AssetManager` in game.js): a download queue, a cache
    from path to image, and the success/error counters that decide when the
    "all loaded" callback fires. Image loading itself is asynchronous I/O;
    here its outcomes arrive as an explicit sequence of events. */
module Assets {
  import opened Wrappers

  /** The `Image` object created for queue position `slot`. `src` is the
      path as it was requested; a browser reading `img.src` back would see
      it resolved to an absolute URL, which is not modelled. */
  datatype Image = Image(src: string, slot: nat)

  /** What one image reports: its "load" or its "error" event. */
  datatype LoadEvent = Loaded | Failed

  datatype Manager = Manager(
    successCount: nat,
    errorCount: nat,
    cache: map<string, Image>,
    downloadQueue: seq<string>)

  /** A fresh manager: nothing queued, nothing cached, no outcomes yet. */
  function NewManager(): (m: Manager)
    ensures m.downloadQueue == [] && m.cache == map[]
    ensures m.successCount == 0 && m.errorCount == 0
  {
    Manager(0, 0, map[], [])
  }

  /** `queueDownload(path)`: appends, with no duplicate check. */
  function QueueDownload(m: Manager, path: string): (r: Manager)
    ensures r.downloadQueue == m.downloadQueue + [path]
    ensures |r.downloadQueue| == |m.downloadQueue| + 1
    ensures r.cache == m.cache && r.successCount == m.successCount && r.errorCount == m.errorCount
  {
    m.(downloadQueue := m.downloadQueue + [path])
  }

  /** `isDone()`: every queued path has reported, one way or the other. */
  predicate IsDone(m: Manager) {
    |m.downloadQueue| == m.successCount + m.errorCount
  }

  /** Queueing each of `paths` in turn. */
  function QueueAll(m: Manager, paths: seq<string>): Manager
    decreases |paths|
  {
    if paths == [] then m else QueueAll(QueueDownload(m, paths[0]), paths[1..])
  }

  /** Queueing never merges: the queue grows by exactly the paths given, in
      order, duplicates included. */
  lemma {:induction false} QueueAllAppends(m: Manager, paths: seq<string>)
    ensures QueueAll(m, paths).downloadQueue == m.downloadQueue + paths
    ensures QueueAll(m, paths).cache == m.cache
    decreases |paths|
  {
    if paths != [] {
      QueueAllAppends(QueueDownload(m, paths[0]), paths[1..]);
      assert m.downloadQueue + [paths[0]] + paths[1..] == m.downloadQueue + paths;
    }
  }

  /** The cache after creating an image for each of the first `n` queued
      paths: each write replaces any earlier image for the same path. */
  function CacheUpTo(cache: map<string, Image>, queue: seq<string>, n: nat): (c: map<string, Image>)
    requires n <= |queue|
    ensures c.Keys == cache.Keys + set k | 0 <= k < n :: queue[k]
    decreases n
  {
    if n == 0 then cache
    else CacheUpTo(cache, queue, n - 1)[queue[n - 1] := Image(queue[n - 1], n - 1)]
  }

  /** `downloadAll(callback)`: creates one image per queued path and caches
      it at request time, before any outcome is known. Returns the manager
      and whether the callback was deferred with a timer because the queue
      was empty. */
  function DownloadAll(m: Manager): (r: (Manager, bool))
    ensures r.1 <==> m.downloadQueue == []
    ensures r.0.downloadQueue == m.downloadQueue
    ensures r.0.successCount == m.successCount && r.0.errorCount == m.errorCount
    ensures forall k :: 0 <= k < |m.downloadQueue| ==> m.downloadQueue[k] in r.0.cache
  {
    var cache := CacheUpTo(m.cache, m.downloadQueue, |m.downloadQueue|);
    (m.(cache := cache), m.downloadQueue == [])
  }

  /** The last queue position holding `path` among the first `n`, if any. */
  function LastSlot(queue: seq<string>, path: string, n: nat): (r: Option<nat>)
    requires n <= |queue|
    ensures r.Some? ==> r.value < n && queue[r.value] == path
    ensures r.Some? ==> forall k :: r.value < k < n ==> queue[k] != path
    ensures r.None? ==> forall k :: 0 <= k < n ==> queue[k] != path
    decreases n
  {
    if n == 0 then None
    else if queue[n - 1] == path then Some(n - 1)
    else LastSlot(queue, path, n - 1)
  }

  /** A path queued more than once ends up cached with the image of its
      last queue position; a path never queued keeps whatever was cached. */
  lemma {:induction false} CacheHoldsLastRequest(cache: map<string, Image>, queue: seq<string>, n: nat, path: string)
    requires n <= |queue|
    ensures var c := CacheUpTo(cache, queue, n);
            match LastSlot(queue, path, n)
            case Some(k) => path in c && c[path] == Image(path, k)
            case None => (path in c <==> path in cache) && (path in cache ==> c[path] == cache[path])
    decreases n
  {
    if n > 0 && queue[n - 1] != path {
      CacheHoldsLastRequest(cache, queue, n - 1, path);
    }
  }

  /** `getAsset(path)`: the cached image, or `undefined`. */
  function GetAsset(m: Manager, path: string): (r: Option<Image>)
    ensures r.Some? <==> path in m.cache
    ensures r.Some? ==> r.value == m.cache[path]
  {
    if path in m.cache then Some(m.cache[path]) else None
  }

  /** One image's "load" or "error" listener: bump the matching counter and
      report whether the callback fires (the manager is now done). */
  function Deliver(m: Manager, e: LoadEvent): (r: (Manager, bool))
    ensures r.0.successCount + r.0.errorCount == m.successCount + m.errorCount + 1
    ensures e == Loaded ==> r.0.successCount == m.successCount + 1 && r.0.errorCount == m.errorCount
    ensures e == Failed ==> r.0.errorCount == m.errorCount + 1 && r.0.successCount == m.successCount
    ensures r.1 <==> IsDone(r.0)
    ensures r.0.cache == m.cache && r.0.downloadQueue == m.downloadQueue
  {
    var m' := match e
      case Loaded => m.(successCount := m.successCount + 1)
      case Failed => m.(errorCount := m.errorCount + 1);
    (m', IsDone(m'))
  }

  /** Delivering outcomes in order: the final manager and, per event,
      whether the callback fired on it. */
  function DeliverAll(m: Manager, events: seq<LoadEvent>): (r: (Manager, seq<bool>))
    ensures |r.1| == |events|
    decreases |events|
  {
    if events == [] then (m, [])
    else
      var first := Deliver(m, events[0]);
      var rest := DeliverAll(first.0, events[1..]);
      (rest.0, [first.1] + rest.1)
  }

  function CountOf(events: seq<LoadEvent>, e: LoadEvent): nat
    decreases |events|
  {
    if events == [] then 0
    else (if events[0] == e then 1 else 0) + CountOf(events[1..], e)
  }

  /** Every event is either a load or an error. */
  lemma {:induction false} CountsPartition(events: seq<LoadEvent>)
    ensures CountOf(events, Loaded) + CountOf(events, Failed) == |events|
    decreases |events|
  {
    if events != [] {
      CountsPartition(events[1..]);
    }
  }

  /** The counters record exactly the outcomes delivered, and delivery
      leaves the cache and the queue alone, failures included. */
  lemma {:induction false} CountersMatchEvents(m: Manager, events: seq<LoadEvent>)
    ensures var r := DeliverAll(m, events).0;
            && r.successCount == m.successCount + CountOf(events, Loaded)
            && r.errorCount == m.errorCount + CountOf(events, Failed)
            && r.cache == m.cache && r.downloadQueue == m.downloadQueue
    decreases |events|
  {
    if events != [] {
      CountersMatchEvents(Deliver(m, events[0]).0, events[1..]);
    }
  }

  /** The callback fires on exactly the event that brings the number of
      outcomes up to the queue length, whatever mix of loads and errors
      came before it. */
  lemma {:induction false} FiresWhenCountReachesQueue(m: Manager, events: seq<LoadEvent>)
    ensures forall k :: 0 <= k < |events| ==>
              (DeliverAll(m, events).1[k] <==> m.successCount + m.errorCount + k + 1 == |m.downloadQueue|)
    decreases |events|
  {
    if events != [] {
      var first := Deliver(m, events[0]);
      FiresWhenCountReachesQueue(first.0, events[1..]);
      var fired := DeliverAll(m, events).1;
      var rest := DeliverAll(first.0, events[1..]).1;
      assert fired == [first.1] + rest;
      forall k | 0 <= k < |events|
        ensures fired[k] <==> m.successCount + m.errorCount + k + 1 == |m.downloadQueue|
      {
        if k > 0 {
          assert fired[k] == rest[k - 1];
          assert rest[k - 1] <==> first.0.successCount + first.0.errorCount + (k - 1) + 1 == |first.0.downloadQueue|;
        }
      }
    }
  }

  /** Starting from zero outcomes, the manager is done after `downloadAll`
      exactly when as many outcomes as queued images have been delivered. */
  lemma DoneIffAllReported(m: Manager, events: seq<LoadEvent>)
    requires m.successCount == 0 && m.errorCount == 0
    ensures IsDone(DeliverAll(DownloadAll(m).0, events).0) <==> |events| == |m.downloadQueue|
  {
    CountersMatchEvents(DownloadAll(m).0, events);
    CountsPartition(events);
  }

  /** After `downloadAll` on a non-empty queue, if every queued image
      reports exactly one outcome (loads and errors in any order), the
      callback fires exactly once, on the last outcome. */
  lemma CallbackFiresOnceOnLastOutcome(m: Manager, events: seq<LoadEvent>)
    requires m.successCount == 0 && m.errorCount == 0
    requires m.downloadQueue != []
    requires |events| == |m.downloadQueue|
    ensures var started := DownloadAll(m);
            var fired := DeliverAll(started.0, events).1;
            && !started.1
            && fired[|events| - 1]
            && forall k :: 0 <= k < |events| - 1 ==> !fired[k]
  {
    FiresWhenCountReachesQueue(DownloadAll(m).0, events);
  }

  /** With an empty queue the timer-deferred call is the single firing:
      it is scheduled, and no load or error event delivered afterwards,
      whatever the events, fires the callback again. */
  lemma EmptyQueueFiresOnceDeferred(m: Manager, events: seq<LoadEvent>)
    requires m.downloadQueue == []
    ensures DownloadAll(m).1
    ensures forall k :: 0 <= k < |events| ==> !DeliverAll(DownloadAll(m).0, events).1[k]
  {
    FiresWhenCountReachesQueue(DownloadAll(m).0, events);
  }

  /** Every queued path can be looked up after `downloadAll`, however its
      load turned out, even when every image fails. */
  lemma {:induction false} EveryQueuedPathIsCached(m: Manager, events: seq<LoadEvent>, path: string)
    requires path in m.downloadQueue
    ensures var after := DeliverAll(DownloadAll(m).0, events).0;
            GetAsset(after, path).Some? && GetAsset(after, path).value.src == path
  {
    var started := DownloadAll(m).0;
    CountersMatchEvents(started, events);
    var n := |m.downloadQueue|;
    CacheHoldsLastRequest(m.cache, m.downloadQueue, n, path);
    var k :| 0 <= k < n && m.downloadQueue[k] == path;
    assert LastSlot(m.downloadQueue, path, n).Some?;
  }
}

=== FILE: bastardman.dfy ===
/** The wandering enemy (`Bastardman` in game.js). Each draw moves it one
    unit per axis toward a fixed anchor, measured from the centre of its
    image, then draws its one-frame looping animation there. The random
    spawn position is a parameter. */
module Enemy {
  import opened Wrappers
  import Sprites

  /** Where the image centre drifts to: x + width/2 toward -100, y + height/2 toward 0. */
  const AnchorX: real := -100.0
  const AnchorY: real := 0.0

  datatype Bastardman = Bastardman(x: real, y: real, animation: Sprites.Animation)

  /** The constructor, given the spawn point: the whole image is one frame
      of duration 1 that loops. */
  function NewBastardman(image: Sprites.Sheet, x: real, y: real): (b: Bastardman)
    ensures b.x == x && b.y == y && b.animation.elapsedTime == 0.0
    ensures b.animation.sheet == image && b.animation.startX == 0 && b.animation.startY == 0
    ensures b.animation.frameDuration == 1.0
    ensures b.animation.frameWidth == image.width && b.animation.frameHeight == image.height
    ensures b.animation.loop && !b.animation.reverse && b.animation.frames == 1
  {
    Bastardman(x, y, Sprites.NewAnimation(image, 0, 0, image.width, image.height, 1.0, 1, true, false))
  }

  /** -1, 0 or 1 as `v` is negative, zero or positive. */
  function Sign(v: real): int {
    if v > 0.0 then 1 else if v < 0.0 then -1 else 0
  }

  function Abs(v: real): real {
    if v < 0.0 then -v else v
  }

  /** One axis of the drift: `p` is the coordinate, `half` half the image
      size on that axis. */
  function Approach(p: real, half: real, anchor: real): (r: real)
    // one unit in the direction of the anchor, or none when already there
    ensures r - p == Sign(anchor - (p + half)) as real
    ensures Abs(r - p) <= 1.0
  {
    if p + half > anchor then p - 1.0
    else if p + half < anchor then p + 1.0
    else p
  }

  /** The distance to the anchor never grows exactly when the centre is on
      the anchor or at least half a unit off it; closer than that, the unit
      step overshoots to the far side and ends farther away. */
  lemma DistanceNeverGrowsIff(p: real, half: real, anchor: real)
    ensures Abs(Approach(p, half, anchor) + half - anchor) <= Abs(p + half - anchor)
            <==> (p + half == anchor || Abs(p + half - anchor) >= 0.5)
  {
  }

  /** When `p + half - anchor` is a multiple of one half (integer positions
      and integer image sizes, as in the game), the distance never grows,
      and it shrinks by exactly one unit while it is at least one unit. */
  lemma DistanceShrinksOnHalfGrid(p: real, half: real, anchor: real, n: int)
    requires p + half - anchor == n as real / 2.0
    ensures Abs(Approach(p, half, anchor) + half - anchor) <= Abs(p + half - anchor)
    ensures Abs(p + half - anchor) >= 1.0 ==>
              Abs(Approach(p, half, anchor) + half - anchor) == Abs(p + half - anchor) - 1.0
  {
    DistanceNeverGrowsIff(p, half, anchor);
  }

  /** `draw()`: drift on both axes, then draw the animation at the new position. */
  function Draw(b: Bastardman, tick: real): (r: (Bastardman, Option<Sprites.Blit>))
    requires b.animation.Valid()
    ensures Abs(r.0.x - b.x) <= 1.0 && Abs(r.0.y - b.y) <= 1.0
    ensures r.0.x - b.x == Sign(AnchorX - (b.x + b.animation.sheet.width as real / 2.0)) as real
    ensures r.0.y - b.y == Sign(AnchorY - (b.y + b.animation.sheet.height as real / 2.0)) as real
    ensures r.1.Some? ==> r.1.value.destX == r.0.x && r.1.value.destY == r.0.y
  {
    var x := Approach(b.x, b.animation.sheet.width as real / 2.0, AnchorX);
    var y := Approach(b.y, b.animation.sheet.height as real / 2.0, AnchorY);
    var drawn := Sprites.DrawFrame(b.animation, tick, x, y, 0.0);
    (Bastardman(x, y, drawn.0), drawn.1)
  }

  /** An enemy whose image centre sits on the anchor stays put. */
  lemma AtAnchorStaysPut(b: Bastardman, tick: real)
    requires b.animation.Valid()
    requires b.x + b.animation.sheet.width as real / 2.0 == AnchorX
    requires b.y + b.animation.sheet.height as real / 2.0 == AnchorY
    ensures Draw(b, tick).0.x == b.x && Draw(b, tick).0.y == b.y
  {
  }

  /** `n` drift steps on one axis. */
  function ApproachTimes(p: real, half: real, anchor: real, n: nat): real
    decreases n
  {
    if n == 0 then p else ApproachTimes(Approach(p, half, anchor), half, anchor, n - 1)
  }

  /** From a whole number of units off the anchor, `n` draws close the gap
      by `n` units and then hold on the anchor: the offset after `n` steps
      keeps its sign and has size max(|d| - n, 0). */
  lemma {:induction false} DriftConverges(p: real, half: real, anchor: real, d: int, n: nat)
    requires p + half - anchor == d as real
    ensures var off := ApproachTimes(p, half, anchor, n) + half - anchor;
            if d >= 0 then off == (if d >= n then (d - n) as real else 0.0)
            else off == (if -d >= n then (d + n) as real else 0.0)
    decreases n
  {
    if n > 0 {
      var q := Approach(p, half, anchor);
      var d' := if d > 0 then d - 1 else if d < 0 then d + 1 else 0;
      assert q + half - anchor == d' as real;
      DriftConverges(q, half, anchor, d', n - 1);
    }
  }

  /** Every draw shows the whole image once its animation clock is inside
      its one-second cycle and ticks are not negative. */
  lemma DrawsWholeImage(b: Bastardman, tick: real)
    requires b.animation.Valid()
    requires b.animation.startX == 0 && b.animation.startY == 0
    requires b.animation.frameWidth == b.animation.sheet.width
    requires b.animation.frameHeight == b.animation.sheet.height
    requires b.animation.frameDuration == 1.0 && b.animation.frames == 1
    requires b.animation.loop && !b.animation.reverse
    requires b.animation.elapsedTime >= 0.0 && tick >= 0.0
    ensures var r := Draw(b, tick).1;
            r.Some? && r.value.srcX == 0 && r.value.srcY == 0
            && r.value.srcW == b.animation.sheet.width && r.value.srcH == b.animation.sheet.height
  {
    var a := Draw(b, tick).0.animation;
    Sprites.DrawnWithinCycle(b.animation, tick, Draw(b, tick).0.x, Draw(b, tick).0.y, 0.0);
    assert Sprites.CurrentFrame(a) == 0;
  }
}

=== FILE: engine.dfy ===
/** The engine's frame bookkeeping (`GameEngine` in game.js): the update
    phase over the entities present when the frame starts, and the cleanup
    that splices out every entity flagged `removeFromWorld`, scanning from
    the last index down. */
module Engine {
  import Timing

  /** An entity as the engine sees it: its kind-specific state and its
      removal flag. */
  datatype Entity<S> = Entity(state: S, removeFromWorld: bool)

  /** An entity's `update()`: its new self and any entities it adds to the
      world while running. */
  type UpdateStep<!S> = Entity<S> -> (Entity<S>, seq<Entity<S>>)

  /** The engine state the frame loop touches. `wheelPending` stands for a
      scroll-wheel event latched since the last frame. */
  datatype Game<S> = Game(entities: seq<Entity<S>>, timer: Timing.Timer, clockTick: real, wheelPending: bool)

  /** `addEntity(entity)`: appended last, so drawn last. */
  function AddEntity<S>(g: Game<S>, e: Entity<S>): (r: Game<S>)
    ensures r.entities == g.entities + [e]
    ensures r.timer == g.timer && r.clockTick == g.clockTick && r.wheelPending == g.wheelPending
  {
    g.(entities := g.entities + [e])
  }

  /** The entities without the removal flag, in their original order. */
  function Survivors<S>(es: seq<Entity<S>>): (r: seq<Entity<S>>)
    ensures |r| <= |es|
    ensures forall k :: 0 <= k < |r| ==> !r[k].removeFromWorld
    decreases |es|
  {
    if es == [] then []
    else if es[0].removeFromWorld then Survivors(es[1..])
    else [es[0]] + Survivors(es[1..])
  }

  /** One entity after its turn in the update loop: updated, or untouched
      if it was already flagged. */
  function VisitEntity<S>(e: Entity<S>, step: UpdateStep<S>): Entity<S> {
    if e.removeFromWorld then e else step(e).0
  }

  /** What the update phase leaves at each of the original positions: the
      updated entity, or the untouched one if it was already flagged. */
  function Visited<S>(es: seq<Entity<S>>, step: UpdateStep<S>): (r: seq<Entity<S>>)
    ensures |r| == |es|
    ensures forall k :: 0 <= k < |es| && es[k].removeFromWorld ==> r[k] == es[k]
    decreases |es|
  {
    if es == [] then []
    else Visited(es[..|es| - 1], step) + [VisitEntity(es[|es| - 1], step)]
  }

  /** The entities added by the updates of the unflagged entities of `es`,
      in the order the updates ran. */
  function Spawned<S>(es: seq<Entity<S>>, step: UpdateStep<S>): seq<Entity<S>>
    decreases |es|
  {
    if es == [] then []
    else
      var last := es[|es| - 1];
      Spawned(es[..|es| - 1], step) + (if last.removeFromWorld then [] else step(last).1)
  }

  /** The collection after the update loop has visited indices below `i`:
      visited entries, then the not-yet-visited originals, then what the
      visited updates appended. */
  function AfterVisits<S>(entities: seq<Entity<S>>, step: UpdateStep<S>, i: nat): seq<Entity<S>>
    requires i <= |entities|
  {
    Visited(entities[..i], step) + entities[i..] + Spawned(entities[..i], step)
  }

  /** Visiting index `i` of that collection: a flagged entity is skipped,
      otherwise it is replaced by its update and the update's additions go
      on the end. */
  lemma VisitOne<S>(entities: seq<Entity<S>>, step: UpdateStep<S>, i: nat)
    requires i < |entities|
    ensures var es := AfterVisits(entities, step, i);
            var e := entities[i];
            && i < |es| && es[i] == e
            && AfterVisits(entities, step, i + 1)
               == if e.removeFromWorld then es else es[i := step(e).0] + step(e).1
  {
    var e := entities[i];
    var pre := entities[..i];
    var pre' := entities[..i + 1];
    assert pre'[..i] == pre;
    assert pre'[i] == e;
    var v := VisitEntity(e, step);
    var spawn := if e.removeFromWorld then [] else step(e).1;
    assert |pre'| - 1 == i;
    assert pre'[..|pre'| - 1] == pre;
    assert Spawned(pre', step) == Spawned(pre, step) + spawn;
    assert Visited(pre', step) == Visited(pre, step) + [v];
    assert entities[i..] == [e] + entities[i + 1..];
    var es := AfterVisits(entities, step, i);
    assert es == Visited(pre, step) + [e] + entities[i + 1..] + Spawned(pre, step);
    assert es[i := v] == Visited(pre, step) + [v] + entities[i + 1..] + Spawned(pre, step);
  }

  /** The first loop of `update()`: visits indices below the length taken
      when the loop starts and updates each entity not yet flagged. Entities
      appended meanwhile are kept but not visited. */
  method UpdatePhase<S>(entities: seq<Entity<S>>, step: UpdateStep<S>) returns (es: seq<Entity<S>>)
    ensures |es| >= |entities|
    ensures es[..|entities|] == Visited(entities, step)
    ensures es[|entities|..] == Spawned(entities, step)
  {
    es := entities;
    var entitiesCount := |es|;
    var i := 0;
    assert entities[..0] == [];
    while i < entitiesCount
      invariant 0 <= i <= entitiesCount == |entities|
      invariant es == AfterVisits(entities, step, i)
    {
      VisitOne(entities, step, i);
      var entity := es[i];
      if !entity.removeFromWorld {
        var updated := step(entity);
        es := es[i := updated.0] + updated.1;
      }
      i := i + 1;
    }
    assert entities[..i] == entities;
  }

  /** The second loop of `update()`: from the last index down to 0, splice
      out each flagged entity. Going downwards, a splice only shifts entries
      that were already examined, so none is skipped. */
  method RemoveFlagged<S>(entities: seq<Entity<S>>) returns (es: seq<Entity<S>>)
    ensures es == Survivors(entities)
  {
    es := entities;
    var i := |es| - 1;
    while i >= 0
      invariant -1 <= i < |entities|
      invariant es == entities[..i + 1] + Survivors(entities[i + 1..])
    {
      assert es[i] == entities[i];
      assert entities[i..][1..] == entities[i + 1..];
      if es[i].removeFromWorld {
        es := es[..i] + es[i + 1..];
      }
      assert entities[..i + 1][..i] == entities[..i];
      i := i - 1;
    }
    assert entities[0..] == entities;
  }

  /** `update()`: the update phase, then the cleanup. */
  method Update<S>(entities: seq<Entity<S>>, step: UpdateStep<S>) returns (es: seq<Entity<S>>)
    ensures es == Survivors(Visited(entities, step) + Spawned(entities, step))
  {
    var visited := UpdatePhase(entities, step);
    assert visited == visited[..|entities|] + visited[|entities|..];
    es := RemoveFlagged(visited);
  }

  /** One turn of the game loop, `loop()`: take the clamped step from the
      timer, update and clean up, let each surviving entity draw in order
      with this frame's clock tick (`draw` returns the entity as its draw
      leaves it), and drop the latched wheel event. Clearing and painting
      the canvas are not modelled. */
  method Frame<S>(g: Game<S>, wallNow: int, step: UpdateStep<S>, draw: (Entity<S>, real) -> Entity<S>) returns (r: Game<S>)
    ensures r.clockTick <= g.timer.maxStep
    ensures r.timer == Timing.Tick(g.timer, wallNow).0 && r.clockTick == Timing.Tick(g.timer, wallNow).1
    ensures var survivors := Survivors(Visited(g.entities, step) + Spawned(g.entities, step));
            |r.entities| == |survivors| && forall k :: 0 <= k < |survivors| ==> r.entities[k] == draw(survivors[k], r.clockTick)
    ensures !r.wheelPending
  {
    var ticked := Timing.Tick(g.timer, wallNow);
    var es := Update(g.entities, step);
    var drawn := seq(|es|, k requires 0 <= k < |es| => draw(es[k], ticked.1));
    r := Game(drawn, ticked.0, ticked.1, false);
  }

  /** Survivors distributes over concatenation, so removal keeps relative order. */
  lemma {:induction false} SurvivorsAppend<S>(a: seq<Entity<S>>, b: seq<Entity<S>>)
    ensures Survivors(a + b) == Survivors(a) + Survivors(b)
    decreases |a|
  {
    if a == [] {
      assert a + b == b;
    } else {
      assert (a + b)[0] == a[0];
      assert (a + b)[1..] == a[1..] + b;
      SurvivorsAppend(a[1..], b);
    }
  }

  /** An entity survives iff it was in the collection and is not flagged. */
  lemma {:induction false} SurvivorsMembership<S>(es: seq<Entity<S>>, e: Entity<S>)
    ensures e in Survivors(es) <==> e in es && !e.removeFromWorld
    decreases |es|
  {
    if es != [] {
      SurvivorsMembership(es[1..], e);
      assert es == [es[0]] + es[1..];
    }
  }

  /** Cleaning up twice removes nothing more. */
  lemma {:induction false} SurvivorsIdempotent<S>(es: seq<Entity<S>>)
    ensures Survivors(Survivors(es)) == Survivors(es)
    decreases |es|
  {
    if es != [] {
      SurvivorsIdempotent(es[1..]);
      if !es[0].removeFromWorld {
        assert ([es[0]] + Survivors(es[1..]))[1..] == Survivors(es[1..]);
      }
    }
  }

  /** How many entities of `es` carry the removal flag. */
  function FlaggedCount<S>(es: seq<Entity<S>>): nat
    decreases |es|
  {
    if es == [] then 0 else (if es[0].removeFromWorld then 1 else 0) + FlaggedCount(es[1..])
  }

  /** Cleanup shortens the collection by exactly the number of flagged
      entities: nothing unflagged is lost and nothing flagged remains. */
  lemma {:induction false} SurvivorsCount<S>(es: seq<Entity<S>>)
    ensures |Survivors(es)| == |es| - FlaggedCount(es)
    decreases |es|
  {
    if es != [] {
      SurvivorsCount(es[1..]);
    }
  }

  /** Positions of the unflagged entities of `es` from `lo` on: strictly
      ascending, and containing every unflagged position in range. */
  function KeptFrom<S>(es: seq<Entity<S>>, lo: nat): (r: seq<nat>)
    requires lo <= |es|
    ensures forall k :: 0 <= k < |r| ==> lo <= r[k] < |es| && !es[r[k]].removeFromWorld
    ensures forall k, j :: 0 <= k < j < |r| ==> r[k] < r[j]
    decreases |es| - lo
  {
    if lo == |es| then []
    else if es[lo].removeFromWorld then KeptFrom(es, lo + 1)
    else [lo] + KeptFrom(es, lo + 1)
  }

  /** Every unflagged position from `lo` on is listed. */
  lemma {:induction false} KeptFromCoversUnflagged<S>(es: seq<Entity<S>>, lo: nat, p: nat)
    requires lo <= p < |es| && !es[p].removeFromWorld
    ensures p in KeptFrom(es, lo)
    decreases |es| - lo
  {
    if p > lo {
      KeptFromCoversUnflagged(es, lo + 1, p);
    }
  }

  /** Survivors is the subsequence of `es` at its unflagged positions taken
      in ascending order: the k-th survivor is the entity at the k-th
      unflagged index. */
  lemma {:induction false} SurvivorsAreKeptPositions<S>(es: seq<Entity<S>>, lo: nat)
    requires lo <= |es|
    ensures |Survivors(es[lo..])| == |KeptFrom(es, lo)|
    ensures forall k :: 0 <= k < |KeptFrom(es, lo)| ==> Survivors(es[lo..])[k] == es[KeptFrom(es, lo)[k]]
    decreases |es| - lo
  {
    if lo < |es| {
      SurvivorsAreKeptPositions(es, lo + 1);
      var tail := es[lo..];
      assert tail[0] == es[lo];
      assert tail[1..] == es[lo + 1..];
      var kept := KeptFrom(es, lo);
      var rest := KeptFrom(es, lo + 1);
      var later := Survivors(es[lo + 1..]);
      if es[lo].removeFromWorld {
        assert Survivors(tail) == later;
        assert kept == rest;
      } else {
        assert Survivors(tail) == [es[lo]] + later;
        assert kept == [lo] + rest;
        forall k | 0 <= k < |kept|
          ensures Survivors(tail)[k] == es[kept[k]]
        {
          if k > 0 {
            assert Survivors(tail)[k] == later[k - 1];
            assert kept[k] == rest[k - 1];
          }
        }
      }
    }
  }

  /** With the flag set at indices 0, 2 and 4 of five entities, cleanup
      leaves exactly the entities from indices 1 and 3, in that order. */
  lemma RemovalSkipsNone<S>(es: seq<Entity<S>>)
    requires |es| == 5
    requires es[0].removeFromWorld && es[2].removeFromWorld && es[4].removeFromWorld
    requires !es[1].removeFromWorld && !es[3].removeFromWorld
    ensures Survivors(es) == [es[1], es[3]]
  {
    assert es[4..][1..] == [];
    assert Survivors(es[4..]) == [];
    assert es[3..][1..] == es[4..];
    assert Survivors(es[3..]) == [es[3]];
    assert es[2..][1..] == es[3..];
    assert Survivors(es[2..]) == [es[3]];
    assert es[1..][1..] == es[2..];
    assert Survivors(es[1..]) == [es[1], es[3]];
  }
}

=== FILE: hero.dfy ===
/** The player (`Hero` in game.js): latching the direction keys, the facing
    flag that decides between turning and walking, and the toroidal wrap at
    the edges of the surface, with its literal 300-unit shift. */
module Player {
  import opened Wrappers
  import Sprites

  /** Units moved per draw while walking. */
  const MovingSpeed: real := 5.0

  /** The literal shift applied to the right-hand edge in the horizontal wrap. */
  const WrapShift: real := 300.0

  /** Facing flags: 0 at start, then 2 left, 3 down, 4 right. Walking up
      never changes the facing. */
  const FacingStart: int := 0
  const FacingLeft: int := 2
  const FacingDown: int := 3
  const FacingRight: int := 4

  /** The latched W/A/S/D keys (up/left/down/right). */
  datatype Keys = Keys(w: bool, a: bool, s: bool, d: bool)

  datatype Hero = Hero(
    x: real, y: real,
    flag: int,
    movingUp: bool, movingLeft: bool, movingDown: bool, movingRight: bool,
    animation: Sprites.Animation)

  /** The walk cycles cut from the hero's sprite sheet: start pose, left,
      down and right, all looping at 0.1 s per frame. */
  function StartAnimation(sheet: Sprites.Sheet): Sprites.Animation {
    Sprites.NewAnimation(sheet, 12, 0, 54, 66, 0.1, 1, true, false)
  }

  function LeftAnimation(sheet: Sprites.Sheet): Sprites.Animation {
    Sprites.NewAnimation(sheet, 0, 85, 60, 66, 0.1, 2, true, false)
  }

  function DownAnimation(sheet: Sprites.Sheet): Sprites.Animation {
    Sprites.NewAnimation(sheet, 12, 0, 54, 66, 0.1, 4, true, false)
  }

  function RightAnimation(sheet: Sprites.Sheet): Sprites.Animation {
    Sprites.NewAnimation(sheet, 145, 85, 80, 66, 0.1, 2, true, false)
  }

  /** The sheet is wide enough for the widest walk frame (80); a narrower
      one would make the row loop of `drawFrame` run forever. */
  predicate SheetFits(sheet: Sprites.Sheet) {
    sheet.width >= 80
  }

  /** The constructor: centred vertically, half a frame left of the left
      edge of the surface, facing flag 0, no key latched. */
  function NewHero(sheet: Sprites.Sheet, surfaceWidth: real): (h: Hero)
    ensures h.x == -surfaceWidth / 2.0 - 27.0 && h.y == 0.0
    ensures h.flag == FacingStart
    ensures !h.movingUp && !h.movingLeft && !h.movingDown && !h.movingRight
    ensures h.animation == StartAnimation(sheet) && h.animation.elapsedTime == 0.0
  {
    var animation := StartAnimation(sheet);
    Hero(-surfaceWidth / 2.0 - animation.frameWidth as real / 2.0, 0.0, FacingStart,
         false, false, false, false, animation)
  }

  /** `update()`: latch the engine's key flags. */
  function Update(h: Hero, keys: Keys): (r: Hero)
    ensures r.movingUp == keys.w && r.movingLeft == keys.a
    ensures r.movingDown == keys.s && r.movingRight == keys.d
    ensures r.x == h.x && r.y == h.y && r.flag == h.flag && r.animation == h.animation
  {
    h.(movingUp := keys.w, movingLeft := keys.a, movingDown := keys.s, movingRight := keys.d)
  }

  /** The draw calls a `drawFrame` result contributes. */
  function Emitted(o: Option<Sprites.Blit>): seq<Sprites.Blit> {
    match o
    case Some(b) => [b]
    case None => []
  }

  /** Draw the current animation at the hero's position. */
  function DrawHere(h: Hero, tick: real): (r: (Hero, seq<Sprites.Blit>))
    requires h.animation.Valid()
    ensures r.0 == h.(animation := r.0.animation)
    ensures r.0.animation == h.animation.(elapsedTime := r.0.animation.elapsedTime)
  {
    var drawn := Sprites.DrawFrame(h.animation, tick, h.x, h.y, 0.0);
    (h.(animation := drawn.0), Emitted(drawn.1))
  }

  /** Holding a side key: walk one step that way (drawing there) if already
      facing it, otherwise turn to it with a fresh animation and stay put. */
  function Turn(h: Hero, facing: int, cycle: Sprites.Animation, dx: real, dy: real, tick: real): (r: (Hero, seq<Sprites.Blit>))
    requires h.animation.Valid() && cycle.Valid()
    ensures r.0.animation.Valid() && r.0.flag == facing
    ensures h.flag == facing ==> r.0.x == h.x + dx && r.0.y == h.y + dy
    ensures h.flag != facing ==> r.0.x == h.x && r.0.y == h.y && r.0.animation == cycle && r.1 == []
    ensures r.0.movingUp == h.movingUp && r.0.movingLeft == h.movingLeft
    ensures r.0.movingDown == h.movingDown && r.0.movingRight == h.movingRight
  {
    if h.flag == facing then DrawHere(h.(x := h.x + dx, y := h.y + dy), tick)
    else (h.(animation := cycle, flag := facing), [])
  }

  /** The four key branches of `draw()`, in source order, before the final
      draw and the wrap. */
  function Walk(h: Hero, tick: real, sheet: Sprites.Sheet): (r: (Hero, seq<Sprites.Blit>))
    requires h.animation.Valid() && SheetFits(sheet)
    ensures r.0.animation.Valid()
    ensures r.0.flag == FinalFacing(h)
    ensures r.0.x == h.x + StepX(h) && r.0.y == h.y + StepY(h)
    ensures r.0.animation == FinalCycle(h, sheet).(elapsedTime := r.0.animation.elapsedTime)
    ensures r.0.movingUp == h.movingUp && r.0.movingLeft == h.movingLeft
    ensures r.0.movingDown == h.movingDown && r.0.movingRight == h.movingRight
  {
    var up := if h.movingUp then DrawHere(h.(y := h.y - MovingSpeed), tick) else (h, []);
    var left := if up.0.movingLeft then Turn(up.0, FacingLeft, LeftAnimation(sheet), -MovingSpeed, 0.0, tick) else (up.0, []);
    var down := if left.0.movingDown then Turn(left.0, FacingDown, DownAnimation(sheet), 0.0, MovingSpeed, tick) else (left.0, []);
    var right := if down.0.movingRight then Turn(down.0, FacingRight, RightAnimation(sheet), MovingSpeed, 0.0, tick) else (down.0, []);
    (right.0, up.1 + left.1 + down.1 + right.1)
  }

  /** The horizontal wrap: past the right bound (which is shifted left by
      300) re-enter at the left; past the left bound re-enter 300 short of
      the mirrored right-hand point. */
  function WrapX(x: real, surfaceWidth: real, frameWidth: real): (r: real)
    ensures var lo := -surfaceWidth / 2.0 - frameWidth - 1.0;
            var hi := surfaceWidth / 2.0 + frameWidth + 1.0 - WrapShift;
            && (lo <= x <= hi ==> r == x)
            && (x > hi ==> r == lo + 1.0)
            && (x < lo && x <= hi ==> r == hi - 1.0)
            // on a surface at least 299 units wider than two frames, the
            // result always lies between the two bounds
            && (surfaceWidth + 2.0 * frameWidth >= 299.0 ==> lo <= r <= hi)
  {
    var x1 := if x > surfaceWidth / 2.0 + frameWidth + 1.0 - WrapShift then -surfaceWidth / 2.0 - frameWidth else x;
    if x1 < -surfaceWidth / 2.0 - frameWidth - 1.0 then surfaceWidth / 2.0 + frameWidth - WrapShift else x1
  }

  /** The vertical wrap: below the bottom bound re-enter above the top,
      above the top bound re-enter at the bottom. */
  function WrapY(y: real, surfaceHeight: real, frameHeight: real): (r: real)
    ensures var lo := -surfaceHeight / 2.0 - frameHeight / 2.0 - 1.0;
            var hi := surfaceHeight / 2.0 + 1.0;
            && (lo <= y <= hi ==> r == y)
            && (y > hi ==> r == lo + 1.0)
            && (y < lo && y <= hi ==> r == hi - 1.0)
            && (surfaceHeight >= 0.0 && frameHeight >= 0.0 ==> lo <= r <= hi)
  {
    var y1 := if y > surfaceHeight / 2.0 + 1.0 then -surfaceHeight / 2.0 - frameHeight / 2.0 else y;
    if y1 < -surfaceHeight / 2.0 - frameHeight / 2.0 - 1.0 then surfaceHeight / 2.0 else y1
  }

  /** Wrapping a wrapped position changes nothing. */
  lemma WrapIsIdempotent(x: real, y: real, surfaceWidth: real, surfaceHeight: real, frameWidth: real, frameHeight: real)
    requires surfaceWidth + 2.0 * frameWidth >= 299.0
    requires surfaceHeight >= 0.0 && frameHeight >= 0.0
    ensures WrapX(WrapX(x, surfaceWidth, frameWidth), surfaceWidth, frameWidth) == WrapX(x, surfaceWidth, frameWidth)
    ensures WrapY(WrapY(y, surfaceHeight, frameHeight), surfaceHeight, frameHeight) == WrapY(y, surfaceHeight, frameHeight)
  {
  }

  /** The facing after the key branches: the last side key held wins. */
  function FinalFacing(h: Hero): int {
    if h.movingRight then FacingRight
    else if h.movingDown then FacingDown
    else if h.movingLeft then FacingLeft
    else h.flag
  }

  /** The left branch walks only when the hero already faces left. */
  predicate WalksLeft(h: Hero) {
    h.movingLeft && h.flag == FacingLeft
  }

  /** The down branch walks only when the hero faces down after the left
      branch, which turned it left if left was held. */
  predicate WalksDown(h: Hero) {
    h.movingDown && !h.movingLeft && h.flag == FacingDown
  }

  /** The right branch walks only when neither earlier side branch turned
      the hero and it already faces right. */
  predicate WalksRight(h: Hero) {
    h.movingRight && !h.movingLeft && !h.movingDown && h.flag == FacingRight
  }

  /** The walk cycle current after the key branches: the one installed by
      the last branch that turned, or the hero's own if none did. */
  function FinalCycle(h: Hero, sheet: Sprites.Sheet): Sprites.Animation {
    if h.movingRight && !WalksRight(h) then RightAnimation(sheet)
    else if h.movingDown && !WalksDown(h) then DownAnimation(sheet)
    else if h.movingLeft && !WalksLeft(h) then LeftAnimation(sheet)
    else h.animation
  }

  /** Horizontal and vertical displacement of the key branches. */
  function StepX(h: Hero): real {
    (if WalksLeft(h) then -MovingSpeed else 0.0) + (if WalksRight(h) then MovingSpeed else 0.0)
  }

  function StepY(h: Hero): real {
    (if h.movingUp then -MovingSpeed else 0.0) + (if WalksDown(h) then MovingSpeed else 0.0)
  }

  /** `draw()`: the key branches, one more draw at the final position, then
      the wrap, sized by whichever animation is current by then. Returns
      the hero and the draw calls issued, in order. */
  function Draw(h: Hero, tick: real, sheet: Sprites.Sheet, surfaceWidth: real, surfaceHeight: real): (r: (Hero, seq<Sprites.Blit>))
    requires h.animation.Valid() && SheetFits(sheet)
    ensures r.0.animation.Valid()
    ensures r.0.movingUp == h.movingUp && r.0.movingLeft == h.movingLeft
    ensures r.0.movingDown == h.movingDown && r.0.movingRight == h.movingRight
    // the facing: the last side key held, else unchanged
    ensures r.0.flag == FinalFacing(h)
    // each side branch walks exactly when the hero already faces that way
    // by then; up always walks; the result is wrapped at the frame size
    // of the walk cycle current at the end
    ensures r.0.animation == FinalCycle(h, sheet).(elapsedTime := r.0.animation.elapsedTime)
    ensures r.0.x == WrapX(h.x + StepX(h), surfaceWidth, r.0.animation.frameWidth as real)
    ensures r.0.y == WrapY(h.y + StepY(h), surfaceHeight, r.0.animation.frameHeight as real)
  {
    var walked := Walk(h, tick, sheet);
    var shown := DrawHere(walked.0, tick);
    var a := shown.0.animation;
    var wrapped := shown.0.(x := WrapX(shown.0.x, surfaceWidth, a.frameWidth as real),
                            y := WrapY(shown.0.y, surfaceHeight, a.frameHeight as real));
    (wrapped, walked.1 + shown.1)
  }

  /** Holding only the key of the way the hero already faces walks five
      units that way (then wraps); holding only up walks five units up. */
  lemma HeldKeyWalks(h: Hero, tick: real, sheet: Sprites.Sheet, surfaceWidth: real, surfaceHeight: real)
    requires h.animation.Valid() && SheetFits(sheet)
    requires (h.movingUp ==> !h.movingLeft && !h.movingDown && !h.movingRight)
    requires h.movingLeft ==> h.flag == FacingLeft && !h.movingDown && !h.movingRight
    requires h.movingDown ==> h.flag == FacingDown && !h.movingRight
    requires h.movingRight ==> h.flag == FacingRight
    ensures var r := Draw(h, tick, sheet, surfaceWidth, surfaceHeight).0;
            var dx := if h.movingLeft then -MovingSpeed else if h.movingRight then MovingSpeed else 0.0;
            var dy := if h.movingUp then -MovingSpeed else if h.movingDown then MovingSpeed else 0.0;
            && r.flag == h.flag
            && r.x == WrapX(h.x + dx, surfaceWidth, h.animation.frameWidth as real)
            && r.y == WrapY(h.y + dy, surfaceHeight, h.animation.frameHeight as real)
  {
  }

  /** Pressing a side key while facing elsewhere only turns: the facing
      flag changes, the new walk cycle starts from zero (advanced by this
      frame's tick in the final draw), and the hero does not move. */
  lemma TurningDoesNotMove(h: Hero, tick: real, sheet: Sprites.Sheet, surfaceWidth: real, surfaceHeight: real)
    requires h.animation.Valid() && SheetFits(sheet)
    requires h.movingLeft && !h.movingUp && !h.movingDown && !h.movingRight
    requires h.flag != FacingLeft
    requires 0.0 <= tick < 0.2
    ensures var r := Draw(h, tick, sheet, surfaceWidth, surfaceHeight).0;
            && r.flag == FacingLeft
            && r.animation == LeftAnimation(sheet).(elapsedTime := tick)
            && r.x == WrapX(h.x, surfaceWidth, 60.0)
            && r.y == WrapY(h.y, surfaceHeight, 66.0)
  {
  }

  /** Once the hero is not facing left, holding left and down together
      never moves it: each frame the left branch turns it left and the down
      branch turns it back down, so the flag ends at "down" and the position
      only wraps. (From facing left, the first frame still walks left.) */
  lemma LeftAndDownStall(h: Hero, tick: real, sheet: Sprites.Sheet, surfaceWidth: real, surfaceHeight: real)
    requires h.animation.Valid() && SheetFits(sheet)
    requires h.movingLeft && h.movingDown && !h.movingUp && !h.movingRight
    requires h.flag != FacingLeft
    ensures var r := Draw(h, tick, sheet, surfaceWidth, surfaceHeight).0;
            && r.flag == FacingDown
            && r.x == WrapX(h.x, surfaceWidth, 54.0)
            && r.y == WrapY(h.y, surfaceHeight, 66.0)
  {
  }
}

=== FILE: timer.dfy ===
/** The frame timer (`Timer` in game.js): turns wall-clock time into a
    simulation step that is never larger than `maxStep`. */
module Timing {

  /** The step cap, in seconds. */
  const MaxStep: real := 0.05

  /** Milliseconds per second: wall timestamps are integer milliseconds,
      as `Date.now()` returns them. */
  const MillisPerSecond: real := 1000.0

  /** `gameTime` and the returned steps are seconds; `wallLastTimestamp`
      is the previous wall reading in milliseconds. */
  datatype Timer = Timer(gameTime: real, maxStep: real, wallLastTimestamp: int)

  /** A fresh timer: no game time yet, previous wall reading 0. */
  function NewTimer(): (t: Timer)
    ensures t.gameTime == 0.0 && t.wallLastTimestamp == 0
    ensures t.maxStep == MaxStep
  {
    Timer(0.0, MaxStep, 0)
  }

  /** Seconds between the previous wall reading and `wallCurrent`. */
  function WallDelta(t: Timer, wallCurrent: int): real {
    (wallCurrent - t.wallLastTimestamp) as real / MillisPerSecond
  }

  function Min(a: real, b: real): real {
    if a <= b then a else b
  }

  /** One `tick()`: the current wall time is a parameter instead of a clock
      read. Returns the updated timer and the clamped step. */
  function Tick(t: Timer, wallCurrent: int): (r: (Timer, real))
    // the step is the smaller of the wall delta and the cap
    ensures r.1 <= t.maxStep && r.1 <= WallDelta(t, wallCurrent)
    ensures r.1 == t.maxStep || r.1 == WallDelta(t, wallCurrent)
    // game time advances by exactly the clamped step, not the raw delta
    ensures r.0.gameTime == t.gameTime + r.1
    ensures r.0.wallLastTimestamp == wallCurrent
    ensures r.0.maxStep == t.maxStep
  {
    var wallDelta := WallDelta(t, wallCurrent);
    var gameDelta := Min(wallDelta, t.maxStep);
    (t.(gameTime := t.gameTime + gameDelta, wallLastTimestamp := wallCurrent), gameDelta)
  }

  /** Any gap of 50 ms or more, a one-second stall included, is cut down to
      exactly the 0.05 s cap. */
  lemma LongPauseIsClamped(t: Timer, wallCurrent: int)
    requires t.maxStep == MaxStep
    requires wallCurrent - t.wallLastTimestamp >= 50
    ensures Tick(t, wallCurrent).1 == 0.05
    ensures Tick(t, wallCurrent).0.gameTime == t.gameTime + 0.05
  {
  }

  /** Below the cap, the step is the wall delta itself. */
  lemma ShortDeltaPassesThrough(t: Timer, wallCurrent: int)
    requires WallDelta(t, wallCurrent) <= t.maxStep
    ensures Tick(t, wallCurrent).1 == WallDelta(t, wallCurrent)
  {
  }

  /** Ticking at each of `stamps` in turn: the final timer and the steps returned. */
  function TickAll(t: Timer, stamps: seq<int>): (r: (Timer, seq<real>))
    ensures |r.1| == |stamps|
    decreases |stamps|
  {
    if stamps == [] then (t, [])
    else
      var first := Tick(t, stamps[0]);
      var rest := TickAll(first.0, stamps[1..]);
      (rest.0, [first.1] + rest.1)
  }

  function Sum(xs: seq<real>): real
    decreases |xs|
  {
    if xs == [] then 0.0 else xs[0] + Sum(xs[1..])
  }

  /** Over any run of ticks, game time is the sum of the returned steps, and
      the timer ends on the last wall reading with its cap unchanged. */
  lemma {:induction false} GameTimeIsSumOfSteps(t: Timer, stamps: seq<int>)
    ensures TickAll(t, stamps).0.gameTime == t.gameTime + Sum(TickAll(t, stamps).1)
    ensures stamps != [] ==> TickAll(t, stamps).0.wallLastTimestamp == stamps[|stamps| - 1]
    ensures TickAll(t, stamps).0.maxStep == t.maxStep
    decreases |stamps|
  {
    if stamps != [] {
      var first := Tick(t, stamps[0]);
      GameTimeIsSumOfSteps(first.0, stamps[1..]);
      if |stamps| > 1 {
        assert stamps[1..][|stamps[1..]| - 1] == stamps[|stamps| - 1];
      }
    }
  }

  /** However long the wall-clock gaps, `n` ticks of a timer with the
      standard cap advance game time by at most `n * 0.05` seconds. */
  lemma {:induction false} GameTimeGrowthIsCapped(t: Timer, stamps: seq<int>)
    requires t.maxStep == MaxStep
    ensures TickAll(t, stamps).0.gameTime <= t.gameTime + |stamps| as real * MaxStep
    decreases |stamps|
  {
    if stamps != [] {
      var first := Tick(t, stamps[0]);
      GameTimeGrowthIsCapped(first.0, stamps[1..]);
    }
  }
}

=== FILE: wrappers.dfy ===
/** Optional values: stands in for JavaScript's `undefined` results and for
    "nothing was drawn". */
module Wrappers {

  datatype Option<+T> = None | Some(value: T)
}
